=== FILE: README.md ===
# MagicQuit idle-quit engine, modelled in Dafny

MagicQuit is a macOS menu-bar utility that remembers when each running
application was last in the foreground and quits the ones left in the
background longer than a threshold (one hour), unless the user has switched
auto-quit off for that application's name. This project models its engine,
`RunningAppsManager` in `MagicQuit/ContentView.swift`, and the small pure
helpers the application row uses for its countdown.

The model is functional. The ledger (`runningApps`) is a `map<App, int>` from
an application record to the integer second it was last in front; the
preference map (`toggleStatus`) is a `map<string, bool>`. The workspace is an
`Inventory` value handed to each sweep: the running applications, the
frontmost one, which have the regular activation policy, which have finished
launching, and which would accept a terminate request. The clock is an integer parameter.

Files:
- `wrappers.dfy`: `Option`, for Swift optionals.
- `process.dfy`: the application record, the inventory, the configuration, and the exclusion filter (activation policy, own bundle id, denylist).
- `optout.dfy`: effective auto-quit lookup, its setter, and the persisted copy.
- `ledger.dfy`: the ledger and its edits: stamp, prune, safety-net add, reap.
- `reconcile.dfy`: the periodic check (`checkOpenApps`) as one function, plus the order in which `addCurrentRunningApps` actually lands its deferred insertions.
- `countdown.dfy`: `secondsUntilClose`, `isLessThanHour`, `formatTime`, with a reader for the countdown text.
- `engine.dfy`: engine state, events, steps, runs, and properties across steps.
- `scenarios.dfy`: concrete runs with a one-hour threshold.

The code is modelled as written. The exclusion filter guards only the
safety-net add. The frontmost refresh, the deactivation handler and the manual
reset stamp any application, excluded or not. So a denylisted application such
as Finder can enter the ledger, and it is asked to quit once it has idled past the
threshold (`Scenarios.FrontmostFinderIsTracked`).

## Model

| member | source | states |
|---|---|---|
| Process.TrackableCases | MagicQuit/ContentView.swift:69-73 | An application that is not regular in this sweep, whose bundle id equals ours (two absent ids count as equal), or whose bundle id is denylisted is never added by the safety-net add; a regular one without a bundle id is added when ours is present |
| OptOut.AutoQuit | MagicQuit/ContentView.swift:178 | The effective flag is the stored value under `name ?? ""`, and `true` when that key is absent; it is false only when explicitly stored false |
| OptOut.SetAutoQuit | MagicQuit/ContentView.swift:180 | After setting, the name's effective flag is the new value; every name with a different key keeps its effective flag; exactly that key is added |
| OptOut.Sync | MagicQuit/ContentView.swift:50-54 | Loading a blob that decodes replaces the map with its content; one that does not decode leaves the map unchanged |
| OptOut.SaveSyncRoundTrip | MagicQuit/ContentView.swift:57-61 | Saving then loading gives back the saved map, so every name's effective flag survives a reload |
| OptOut.OptOutSurvivesReload | MagicQuit/ContentView.swift:179-181 | Switching a name off, saving, and reloading into a fresh map reads off; a name never set reads on |
| OptOut.UndecodableStoreEnablesAll | MagicQuit/ContentView.swift:17-20 | With nothing decodable stored, startup leaves the map empty and every application enabled |
| Ledger.Touch | MagicQuit/ContentView.swift:29-31 | Stamping sets that application's timestamp to now, adding it if absent, with every other entry unchanged |
| Ledger.Prune | MagicQuit/ContentView.swift:88-90 | Exactly the tracked applications still in the running list survive, with their timestamps |
| Ledger.AddRunning | MagicQuit/ContentView.swift:63-80 | The safety-net add adds exactly the running applications that pass the exclusion filter and are untracked, each stamped now; existing entries keep their timestamps |
| Ledger.Reap | MagicQuit/ContentView.swift:105-109 | An entry is removed exactly when it was requested to quit and accepted; all others stay with their timestamps |
| Reconcile.Refresh | MagicQuit/ContentView.swift:88-95 | After the prune and the frontmost stamp, exactly the still-running tracked entries and the frontmost application are tracked; the frontmost one holds now and the rest keep their timestamps |
| Reconcile.Stage | MagicQuit/ContentView.swift:88-97 | Before the termination loop, the ledger holds the still-running tracked entries, the frontmost application and the eligible new ones; only the old entries that are not frontmost keep their timestamps, and the rest hold now |
| Reconcile.Requests | MagicQuit/ContentView.swift:100-103 | An entry gets a terminate request exactly when it has idled strictly past the threshold, has finished launching, and its effective flag is on |
| Reconcile.Sweep | MagicQuit/ContentView.swift:82-112 | Against the starting ledger: the requests are exactly the tracked, running, background, idle-past-threshold, launched, opted-in entries; the frontmost application ends stamped now and is not requested; a rejected request leaves the entry and its timestamp; an opted-out running entry is never requested or removed; only running or frontmost applications remain |
| Reconcile.SweepDeferred | MagicQuit/ContentView.swift:70-76 | With the safety-net insertions dispatched to run after the termination loop, the sweep still meets the same contract against the starting ledger: the same requests, the same survivors, the same timestamps |
| Reconcile.DeferredInsertMatchesSweep | MagicQuit/ContentView.swift:97-109 | Performing the safety-net insertions after the termination loop, as the deferred dispatch does, yields the same ledger and the same requests as performing them before it |
| Reconcile.SweepKeepsOnlyRunning | MagicQuit/ContentView.swift:89-90 | When the frontmost application is among the running ones, no application absent from the running list is tracked after a sweep, whatever its timestamp |
| Reconcile.FailedRequestRetried | MagicQuit/ContentView.swift:105-109 | A rejected request is repeated by any later sweep that still sees the application running, in the background and launched |
| Countdown.IntDecimalRoundTrip | MagicQuit/ContentView.swift:241 | Integer interpolation is decimal with a leading '-' for negatives, and reading it back gives the integer |
| Countdown.FormatTimeMeaning | MagicQuit/ContentView.swift:235-243 | The text reads back as hours exactly from 3600 seconds up, as minutes exactly from 60 to 3599, and as raw seconds otherwise; the amount is the number of whole units (at least one for hours and minutes) or the exact seconds, including negative ones |
| Engine.Init | MagicQuit/ContentView.swift:19-22 | Startup tracks exactly the running applications that pass the exclusion filter, each stamped now; a decodable store becomes the preference map and an undecodable one leaves it empty |
| Engine.Step | MagicQuit/ContentView.swift:24-42 | A check replaces the ledger with the sweep's result (so it carries the sweep's whole contract) and leaves the preferences alone; a deactivation or reset only stamps that application; a toggle leaves the ledger alone, is the setter (that name's flag becomes the new value and every other name's flag is unchanged) and persists a copy that reloads to the live map |
| Engine.StepNeverRewinds | MagicQuit/ContentView.swift:93-95 | With a clock that does not go backwards, one step keeps every timestamp at or before now and never moves a tracked application's timestamp backwards |
| Engine.RunNeverRewinds | MagicQuit/ContentView.swift:82-112 | Over any run with a non-decreasing clock, every timestamp stays at or before the final clock, and an application tracked at the start and the end never ends with an earlier timestamp |
| Engine.LingeringEntrySurvives | MagicQuit/ContentView.swift:101-110 | Over any number of checks that see an application running in the background while it rejects every request or is opted out, it stays tracked with its original timestamp: there is no retry cap |
| Engine.CountdownMatchesSweep | MagicQuit/ContentView.swift:187-188 | The seconds left turn negative exactly when a sweep counts the entry as idle too long; the row is emphasised exactly when less than an hour remains |
| Engine.ResetPostponesQuit | MagicQuit/ContentView.swift:220-224 | A manual reset puts the full threshold back on the countdown, and a check run directly on the reset ledger at any time up to a full threshold later does not ask the application to quit |
| Engine.ResetThenRun | MagicQuit/ContentView.swift:36-40 | After a reset and then any run of events with a clock that does not go backwards, a check no later than one threshold after the reset does not ask the application to quit, so every timer-driven check in that window spares it |
| Scenarios.ThresholdIsStrict | MagicQuit/ContentView.swift:100-109 | With a one-hour threshold, an idle entry is untouched 3599 and 3600 seconds after it was last in front, and is requested and removed at 3601 |
| Scenarios.OptedOutNeverQuits | MagicQuit/ContentView.swift:103 | An application whose name is switched off is never requested to quit, however long it idles |
| Scenarios.FrontmostFinderIsTracked | MagicQuit/ContentView.swift:93-95 | Finder fails the exclusion filter, yet in front it is tracked, and once past the threshold in the background it is requested to quit |
| Scenarios.DeactivatedFinderIsTracked | MagicQuit/ContentView.swift:29-31 | A deactivation notice tracks even a denylisted application |
| Scenarios.PolicyChangeKeepsEntry | MagicQuit/ContentView.swift:89-108 | A tracked application that stops being regular keeps its entry, since pruning compares application objects, and is asked to quit and removed once idle past the threshold |

## Left out

- Workspace and application objects: the running list, the frontmost application, `isFinishedLaunching` and the result of `terminate()` are inputs of each sweep. An application is a record of pid, name and bundle id; its activation policy is a per-sweep observation, like `isFinishedLaunching`.
- Reconcile.Sweep, Reconcile.SweepKeepsOnlyRunning: the model takes a single reading of the running list, the frontmost application and the clock per check. `checkOpenApps` reads the running list twice: once for the prune and again inside `addCurrentRunningApps` for the safety-net add. It reads the frontmost application separately, and reads `Date()` in both functions. An application launched between the two readings is added by the program even though it was absent from the list used to prune. So "only running or frontmost applications remain" holds relative to one consistent snapshot, not to the program's first reading.
- Notification wiring and main-queue dispatch: every mutation is one synchronous step. The deferred safety-net insertions are modelled separately and proved equivalent (`Reconcile.DeferredInsertMatchesSweep`). Interleaving a deactivation between a check and its deferred insertions is not modelled.
- Timer gating: a check runs once a second only while a window is key or main, or when the wall-clock second is zero. In the model a check is an event that simply happens.
- Floating-point dates: time is whole seconds. The program's elapsed time is fractional, and the model does not cover that.
- Engine.CountdownMatchesSweep: holds only in whole seconds. In the program, an elapsed time strictly between the threshold and one second past it already triggers termination (`elapsedTime > 3600.0`). The row still shows `3600 - Int(elapsed) = 0`, i.e. "0s left". So the countdown is negative exactly when the entry is due only for whole-second clocks. `Scenarios.ThresholdIsStrict`'s 3600-versus-3601 boundary is likewise a whole-second statement; fractionally, any elapsed time above 3600 quits.
- OptOut.AutoQuit, OptOut.SetAutoQuit: keys are compared as plain character sequences. Swift `String` equality and hashing use Unicode canonical equivalence, so display names that differ only in normalization (NFC "é" and NFD "e" plus a combining accent) share one flag in the program but are distinct keys in the model.
- JSON encoding and `@AppStorage`: the stored blob is either a copy of the map or undecodable. Encoding a string-to-bool map is taken never to fail, so the branch that leaves the stored data unchanged on encode failure is not modelled.
- The SwiftUI views: layout, colours, icons, hover state and the name sort of the rows (which force-unwraps the name).
- `appsToClose`: it is declared but never used.
- Logging with `print`.
- `MagicQuit/MagicQuitApp.swift`: menu-bar scene setup and icon scaling only.

=== FILE: countdown.dfy ===
/**
 * The row's countdown: seconds left before an entry becomes due, the
 * "less than an hour" emphasis, and the short text shown for it, together with
 * a reader for that text used to state what the text means.
 */
module Countdown {
  import opened Wrappers
  import opened Process

  /** Seconds left before the threshold is reached, negative once it has passed. */
  function SecondsUntilClose(cfg: Config, since: int, now: int): int {
    ThresholdSeconds(cfg) - (now - since)
  }

  /** The row is emphasised once less than an hour remains. */
  predicate IsLessThanHour(cfg: Config, since: int, now: int) {
    SecondsUntilClose(cfg, since, now) < 3600
  }

  predicate IsDigit(c: char) {
    '0' <= c <= '9'
  }

  predicate AllDigits(s: string) {
    forall i :: 0 <= i < |s| ==> IsDigit(s[i])
  }

  function DigitChar(d: nat): (c: char)
    requires d < 10
    ensures IsDigit(c)
  {
    (48 + d) as char
  }

  function DigitValue(c: char): (d: nat)
    requires IsDigit(c)
    ensures d < 10
  {
    (c as int - 48) as nat
  }

  /** The decimal digits of `n`, most significant first, without leading zeros. */
  function NatDecimal(n: nat): (s: string)
    ensures |s| >= 1 && AllDigits(s)
    ensures |s| > 1 ==> s[0] != '0'
    decreases n
  {
    if n < 10 then [DigitChar(n)] else NatDecimal(n / 10) + [DigitChar(n % 10)]
  }

  /** Integer interpolation: the decimal digits of the magnitude, preceded by '-' when negative. */
  function IntDecimal(i: int): string {
    if i < 0 then "-" + NatDecimal(-i) else NatDecimal(i)
  }

  /** The value of a string of decimal digits. */
  function ParseNat(s: string): nat
    requires AllDigits(s)
    decreases |s|
  {
    if |s| == 0 then 0 else ParseNat(s[..|s| - 1]) * 10 + DigitValue(s[|s| - 1])
  }

  /** The value of an optional '-' followed by at least one decimal digit; anything else is `None`. */
  function ParseInt(s: string): Option<int> {
    if |s| > 0 && s[0] == '-' then
      if |s| > 1 && AllDigits(s[1..]) then Some(-(ParseNat(s[1..]) as int)) else None
    else if |s| > 0 && AllDigits(s) then Some(ParseNat(s))
    else None
  }

  lemma {:induction false} NatDecimalRoundTrip(n: nat)
    ensures ParseNat(NatDecimal(n)) == n
    decreases n
  {
    if n >= 10 {
      var s := NatDecimal(n);
      NatDecimalRoundTrip(n / 10);
      assert s[..|s| - 1] == NatDecimal(n / 10);
    }
  }

  /** Reading back an interpolated integer gives the integer. */
  lemma IntDecimalRoundTrip(i: int)
    ensures ParseInt(IntDecimal(i)) == Some(i)
  {
    if i < 0 {
      NatDecimalRoundTrip(-i);
      assert IntDecimal(i)[1..] == NatDecimal(-i);
    } else {
      NatDecimalRoundTrip(i);
    }
  }

  datatype Unit = Hours | Minutes | Seconds

  /** What a countdown text says: an amount of some unit left. */
  datatype Reading = Reading(amount: int, unit: Unit)

  function UnitChar(u: Unit): char {
    match u
    case Hours => 'h'
    case Minutes => 'm'
    case Seconds => 's'
  }

  function CharUnit(c: char): Option<Unit> {
    if c == 'h' then Some(Hours)
    else if c == 'm' then Some(Minutes)
    else if c == 's' then Some(Seconds)
    else None
  }

  const Suffix: string := " left"

  /** The countdown text: whole hours from an hour up, whole minutes from a minute up, else the raw seconds. */
  function FormatTime(seconds: int): string {
    if seconds >= 3600 then IntDecimal(seconds / 3600) + "h" + Suffix
    else if seconds >= 60 then IntDecimal(seconds / 60) + "m" + Suffix
    else IntDecimal(seconds) + "s" + Suffix
  }

  /** Reads "<integer><h|m|s> left" back into its amount and unit. */
  function ReadCountdown(text: string): Option<Reading> {
    if |text| < |Suffix| + 2 || text[|text| - |Suffix|..] != Suffix then None
    else
      var body := text[..|text| - |Suffix|];
      match (ParseInt(body[..|body| - 1]), CharUnit(body[|body| - 1]))
      case (Some(n), Some(u)) => Some(Reading(n, u))
      case _ => None
  }

  lemma ReadComposed(n: int, u: Unit)
    ensures ReadCountdown(IntDecimal(n) + [UnitChar(u)] + Suffix) == Some(Reading(n, u))
  {
    var digits := IntDecimal(n);
    var text := digits + [UnitChar(u)] + Suffix;
    IntDecimalRoundTrip(n);
    assert text[|text| - |Suffix|..] == Suffix;
    var body := text[..|text| - |Suffix|];
    assert body == digits + [UnitChar(u)];
    assert body[..|body| - 1] == digits;
  }

  /**
   * What the countdown text means: the unit is hours exactly from 3600
   * seconds up and minutes exactly from 60 up to 3599; the amount shown is
   * the number of whole units in `seconds`, at least one for hours and
   * minutes, and below that the exact (possibly negative) seconds.
   */
  lemma FormatTimeMeaning(seconds: int)
    ensures ReadCountdown(FormatTime(seconds)).Some?
    ensures var r := ReadCountdown(FormatTime(seconds)).value;
      && (r.unit == Hours <==> seconds >= 3600)
      && (r.unit == Minutes <==> 60 <= seconds < 3600)
      && (r.unit == Hours ==> r.amount >= 1 && r.amount * 3600 <= seconds < r.amount * 3600 + 3600)
      && (r.unit == Minutes ==> 1 <= r.amount < 60 && r.amount * 60 <= seconds < r.amount * 60 + 60)
      && (r.unit == Seconds ==> r.amount == seconds && seconds < 60)
  {
    if seconds >= 3600 {
      ReadComposed(seconds / 3600, Hours);
    } else if seconds >= 60 {
      ReadComposed(seconds / 60, Minutes);
    } else {
      ReadComposed(seconds, Seconds);
    }
  }
}

=== FILE: engine.dfy ===
/**
 * The engine as a whole: its state, the events that drive it, one step per
 * event, a run over a sequence of events, and the properties that hold
 * across steps.
 */
module Engine {
  import opened Wrappers
  import opened Process
  import opened OptOut
  import opened Ledger
  import opened Reconcile
  import opened Countdown

  /** The ledger, the live preference map, and the persisted copy of that map. */
  datatype State = State(ledger: Ledger, toggles: Toggles, stored: Blob)

  /**
   * What can happen to the engine: a periodic check at time `now`, an
   * application losing the foreground, the user resetting a row's idle clock,
   * or the user flipping a row's toggle.
   */
  datatype Event =
    | Check(now: int, inv: Inventory)
    | Deactivated(app: App, now: int)
    | Reset(app: App, now: int)
    | Toggle(name: Option<string>, on: bool)

  /** Startup: load the preferences (kept empty if they do not decode), then the safety-net add. */
  function Init(cfg: Config, stored: Blob, inv: Inventory, now: int): (s: State)
    ensures forall a :: a in s.ledger <==> a in inv.live && Trackable(a, inv.regular, cfg.ownBundle)
    ensures forall a :: a in s.ledger ==> s.ledger[a] == now
    ensures stored.decoded.None? ==> s.toggles == map[]
    ensures stored.decoded.Some? ==> s.toggles == stored.decoded.value
    ensures s.stored == stored
  {
    State(AddRunning(map[], inv.live, inv.regular, cfg.ownBundle, now), Sync(map[], stored), stored)
  }

  /** The engine's response to one event. */
  function Step(cfg: Config, s: State, e: Event): (s': State)
    ensures e.Check? ==> s'.toggles == s.toggles && s'.stored == s.stored
    ensures e.Check? ==> s'.ledger == Sweep(cfg, s.toggles, s.ledger, e.inv, e.now).ledger
    ensures e.Deactivated? || e.Reset? ==>
      s' == s.(ledger := Touch(s.ledger, e.app, e.now))
    ensures e.Toggle? ==>
      && s'.ledger == s.ledger
      && s'.toggles == SetAutoQuit(s.toggles, e.name, e.on)
      && s'.stored == Save(s'.toggles)
    // For a toggle, `SetAutoQuit`'s and `Sync`'s contracts then give: the named
    // flag reads `e.on`, every other name keeps its flag, and the stored copy
    // reloads to the live map.
  {
    match e
    case Check(now, inv) => s.(ledger := Sweep(cfg, s.toggles, s.ledger, inv, now).ledger)
    case Deactivated(app, now) => s.(ledger := Touch(s.ledger, app, now))
    case Reset(app, now) => s.(ledger := Touch(s.ledger, app, now))
    case Toggle(name, on) =>
      var t := SetAutoQuit(s.toggles, name, on);
      s.(toggles := t, stored := Save(t))
  }

  /** The state after handling `events` in order. */
  function Run(cfg: Config, s: State, events: seq<Event>): State
    decreases |events|
  {
    if |events| == 0 then s else Run(cfg, Step(cfg, s, events[0]), events[1..])
  }

  /** The clock reading once `e` has been handled, `t` being the reading before it. */
  function ClockAfter(e: Event, t: int): int {
    match e
    case Check(now, _) => now
    case Deactivated(_, now) => now
    case Reset(_, now) => now
    case Toggle(_, _) => t
  }

  /** Every timed event in `events` reads the clock at or after the one before it, starting from `t`. */
  ghost predicate ClockMonotone(events: seq<Event>, t: int)
    decreases |events|
  {
    |events| > 0 ==>
      ClockAfter(events[0], t) >= t && ClockMonotone(events[1..], ClockAfter(events[0], t))
  }

  /** The clock reading after the whole of `events`. */
  function FinalClock(events: seq<Event>, t: int): int
    decreases |events|
  {
    if |events| == 0 then t else FinalClock(events[1..], ClockAfter(events[0], t))
  }

  /**
   * One step with a clock that does not go backwards: every timestamp stays at
   * or before the clock, an entry that was already tracked never gets an
   * earlier timestamp, and an entry that appears is stamped no earlier than
   * the clock before the step.
   */
  lemma StepNeverRewinds(cfg: Config, s: State, e: Event, t: int)
    requires Bounded(s.ledger, t) && ClockAfter(e, t) >= t
    ensures var l' := Step(cfg, s, e).ledger;
      && Bounded(l', ClockAfter(e, t))
      && (forall a :: a in l' && a in s.ledger ==> l'[a] >= s.ledger[a])
      && (forall a :: a in l' && a !in s.ledger ==> l'[a] >= t)
  {
  }

  /**
   * Over any run whose clock never goes backwards, every timestamp stays at or
   * before the final clock, and an application's timestamp never moves
   * backwards: if it is tracked at the start and at the end, its final
   * timestamp is no earlier than its first one (even if it was dropped and
   * re-added in between), and one that was not tracked at the start is stamped
   * no earlier than the starting clock.
   */
  lemma {:induction false} RunNeverRewinds(cfg: Config, s: State, events: seq<Event>, t: int)
    requires Bounded(s.ledger, t) && ClockMonotone(events, t)
    ensures var l' := Run(cfg, s, events).ledger;
      && Bounded(l', FinalClock(events, t))
      && (forall a :: a in l' && a in s.ledger ==> l'[a] >= s.ledger[a])
      && (forall a :: a in l' && a !in s.ledger ==> l'[a] >= t)
    decreases |events|
  {
    if |events| > 0 {
      var mid := Step(cfg, s, events[0]);
      var t1 := ClockAfter(events[0], t);
      StepNeverRewinds(cfg, s, events[0], t);
      RunNeverRewinds(cfg, mid, events[1..], t1);
    }
  }

  /**
   * Each event is a check that still sees `a` running in the background, and
   * either `a` would reject a terminate request or its flag is off.
   */
  ghost predicate Lingers(a: App, t: Toggles, events: seq<Event>) {
    forall i :: 0 <= i < |events| ==>
      && events[i].Check?
      && a in events[i].inv.live
      && events[i].inv.frontmost != Some(a)
      && (a !in events[i].inv.accepts || !AutoQuit(t, a.name))
  }

  /**
   * There is no retry cap and no give-up: an application that keeps running
   * in the background but rejects every request, or is opted out, stays
   * tracked through any number of checks with the timestamp it had.
   */
  lemma {:induction false} LingeringEntrySurvives(cfg: Config, s: State, a: App, events: seq<Event>)
    requires a in s.ledger && Lingers(a, s.toggles, events)
    ensures a in Run(cfg, s, events).ledger
    ensures Run(cfg, s, events).ledger[a] == s.ledger[a]
    ensures Run(cfg, s, events).toggles == s.toggles
    decreases |events|
  {
    if |events| > 0 {
      var mid := Step(cfg, s, events[0]);
      assert Lingers(a, mid.toggles, events[1..]) by {
        forall i | 0 <= i < |events[1..]|
          ensures events[1..][i] == events[i + 1]
        {
        }
      }
      LingeringEntrySurvives(cfg, mid, a, events[1..]);
    }
  }

  /** The countdown turns negative exactly when the sweep considers the entry idle too long. */
  lemma CountdownMatchesSweep(cfg: Config, since: int, now: int)
    ensures SecondsUntilClose(cfg, since, now) < 0 <==> IdleTooLong(cfg, since, now)
    ensures IsLessThanHour(cfg, since, now) <==> now - since > ThresholdSeconds(cfg) - 3600
  {
  }

  /**
   * A deactivation or a manual reset puts a full threshold back on the
   * countdown, and no check during the following threshold window asks the
   * application to quit.
   */
  lemma ResetPostponesQuit(cfg: Config, s: State, app: App, now: int, later: int, inv: Inventory)
    requires now <= later <= now + ThresholdSeconds(cfg)
    ensures var s' := Step(cfg, s, Reset(app, now));
      && SecondsUntilClose(cfg, s'.ledger[app], now) == ThresholdSeconds(cfg)
      && app !in Sweep(cfg, s'.toggles, s'.ledger, inv, later).requested
  {
  }

  /**
   * A reset holds off termination for the whole following threshold window,
   * however many events come in between: after any run with a clock that
   * does not go backwards, a check no later than one threshold after the
   * reset does not ask the application to quit.
   */
  lemma ResetThenRun(cfg: Config, s: State, app: App, now: int, events: seq<Event>, later: int, inv: Inventory)
    requires Bounded(s.ledger, now) && ClockMonotone(events, now)
    requires FinalClock(events, now) <= later <= now + ThresholdSeconds(cfg)
    ensures var s2 := Run(cfg, Step(cfg, s, Reset(app, now)), events);
      app !in Sweep(cfg, s2.toggles, s2.ledger, inv, later).requested
  {
    RunNeverRewinds(cfg, Step(cfg, s, Reset(app, now)), events, now);
  }
}

=== FILE: ledger.dfy ===
/**
 * The activity ledger: each tracked application mapped to the integer second
 * at which it was last seen in the foreground, and the four edits the engine
 * makes to it.
 */
module Ledger {
  import opened Wrappers
  import opened Process

  type Ledger = map<App, int>

  /** Every timestamp in the ledger is at or before `now`. */
  ghost predicate Bounded(l: Ledger, now: int) {
    forall a :: a in l ==> l[a] <= now
  }

  /**
   * Stamping one application with `now`, adding it when absent: the frontmost
   * refresh, the deactivation handler and the manual reset all do this, none
   * of them consulting the exclusion rule.
   */
  function Touch(l: Ledger, a: App, now: int): (r: Ledger)
    ensures a in r && r[a] == now
    ensures r.Keys == l.Keys + {a}
    ensures forall b :: b in l && b != a ==> r[b] == l[b]
  {
    l[a := now]
  }

  /** Dropping every entry whose application is no longer running; survivors keep their timestamps. */
  function Prune(l: Ledger, live: seq<App>): (r: Ledger)
    ensures forall a :: a in r <==> a in l && a in live
    ensures forall a :: a in r ==> r[a] == l[a]
  {
    map a | a in l && a in live :: l[a]
  }

  /**
   * The safety-net add, walking the running applications in order: each one
   * that passes the exclusion filter and is not yet tracked is stamped `now`;
   * tracked entries are left alone.
   */
  function AddRunning(l: Ledger, live: seq<App>, regular: set<App>, ownBundle: Option<string>, now: int): (r: Ledger)
    ensures forall a :: a in r <==> a in l || (a in live && Trackable(a, regular, ownBundle))
    ensures forall a :: a in l ==> r[a] == l[a]
    ensures forall a :: a in r && a !in l ==> r[a] == now
    decreases |live|
  {
    if |live| == 0 then l
    else
      var a := live[0];
      var l' := if Trackable(a, regular, ownBundle) && a !in l then l[a := now] else l;
      assert forall b :: b in live <==> b == a || b in live[1..];
      AddRunning(l', live[1..], regular, ownBundle, now)
  }

  /**
   * The outcome of the termination loop: an entry is removed exactly when it
   * was sent a terminate request and the request was accepted.
   */
  function Reap(l: Ledger, requested: set<App>, accepts: set<App>): (r: Ledger)
    ensures forall a :: a in r <==> a in l && !(a in requested && a in accepts)
    ensures forall a :: a in r ==> r[a] == l[a]
  {
    map a | a in l && !(a in requested && a in accepts) :: l[a]
  }
}

=== FILE: optout.dfy ===
/**
 * The per-name auto-quit preference store: a map from display name to
 * "auto-quit enabled", where a missing name means enabled, persisted as an
 * opaque blob that is re-written on every edit and read once at startup.
 */
module OptOut {
  import opened Wrappers

  type Toggles = map<string, bool>

  /** The key an application's preference is stored under: its name, or "" when it has none. */
  function Key(name: Option<string>): string {
    name.GetOr("")
  }

  /** The effective auto-quit flag: the stored value, or `true` when the key is absent. */
  function AutoQuit(t: Toggles, name: Option<string>): (on: bool)
    ensures Key(name) in t ==> on == t[Key(name)]
    ensures Key(name) !in t ==> on
    ensures !on ==> Key(name) in t && !t[Key(name)]
  {
    if Key(name) in t then t[Key(name)] else true
  }

  /** The row toggle's setter: stores `on` under the application's key. */
  function SetAutoQuit(t: Toggles, name: Option<string>, on: bool): (t': Toggles)
    ensures AutoQuit(t', name) == on
    ensures forall other :: Key(other) != Key(name) ==> AutoQuit(t', other) == AutoQuit(t, other)
    ensures t'.Keys == t.Keys + {Key(name)}
  {
    t[Key(name) := on]
  }

  /**
   * The persisted blob. Its content is either a decodable map or something
   * that does not decode (absent or corrupt data).
   */
  datatype Blob = Blob(decoded: Option<Toggles>)

  /** An empty store: nothing has been saved yet, so nothing decodes. */
  const EmptyBlob: Blob := Blob(None)

  /** Serialising the map; encoding a string-to-bool map always succeeds. */
  function Save(t: Toggles): Blob {
    Blob(Some(t))
  }

  /** Reading the blob back into the live map: a blob that does not decode leaves the map as it was. */
  function Sync(current: Toggles, b: Blob): (t: Toggles)
    ensures b.decoded.None? ==> t == current
    ensures b.decoded.Some? ==> t == b.decoded.value
  {
    match b.decoded
    case Some(m) => m
    case None => current
  }

  /** Preference edits survive a reload, whatever the reloading map held before. */
  lemma SaveSyncRoundTrip(t: Toggles, current: Toggles, name: Option<string>)
    ensures Sync(current, Save(t)) == t
    ensures AutoQuit(Sync(current, Save(t)), name) == AutoQuit(t, name)
  {
  }

  /** Turning a name off, saving, and reloading into a fresh map reads back off; an unset name reads on. */
  lemma OptOutSurvivesReload(t: Toggles, name: Option<string>, other: Option<string>)
    requires Key(other) !in t && Key(other) != Key(name)
    ensures !AutoQuit(Sync(map[], Save(SetAutoQuit(t, name, false))), name)
    ensures AutoQuit(Sync(map[], Save(SetAutoQuit(t, name, false))), other)
  {
  }

  /** A store that does not decode yields the empty map at startup, so every application is enabled. */
  lemma UndecodableStoreEnablesAll(name: Option<string>)
    ensures Sync(map[], EmptyBlob) == map[]
    ensures AutoQuit(Sync(map[], EmptyBlob), name)
  {
  }
}

=== FILE: process.dfy ===
/**
 * The process inventory the engine consumes: a running application, the
 * snapshot of the workspace one sweep reads, and the fixed exclusion rule the
 * safety-net add applies.
 */
module Process {
  import opened Wrappers

  /**
   * A running application. Its identity is the whole record, as
   * `RunningAppsManager` keys its ledger by the application object itself;
   * the attributes that may change while it runs (its activation policy,
   * whether it has finished launching, whether a terminate request is
   * accepted) are per-sweep observations in `Inventory`, not part of the key.
   */
  datatype App = App(pid: int, name: Option<string>, bundleId: Option<string>)

  /**
   * What one sweep observes of the workspace: the running applications, the
   * frontmost one, which of them have the regular (user-facing) activation
   * policy, which have finished launching, and which would accept a terminate
   * request right now.
   */
  datatype Inventory = Inventory(
    live: seq<App>,
    frontmost: Option<App>,
    regular: set<App>,
    launched: set<App>,
    accepts: set<App>)

  /**
   * The engine's configuration: the idle threshold in hours
   * (`hoursUntilClose`, fixed at 1 in the program) and this application's own
   * bundle identifier, which may be absent.
   */
  datatype Config = Config(hours: nat, ownBundle: Option<string>)

  /** The idle threshold in seconds. */
  function ThresholdSeconds(cfg: Config): nat {
    cfg.hours * 3600
  }

  /** System components the safety-net add never tracks. */
  const Denylist: set<string> :=
    {"com.apple.loginwindow", "com.apple.systemuiserver", "com.apple.dock", "com.apple.finder"}

  /**
   * The filter of the safety-net add: a regular application whose bundle
   * identifier differs from ours (two absent identifiers are equal) and, read
   * as the empty string when absent, is not on the denylist.
   */
  predicate Trackable(a: App, regular: set<App>, ownBundle: Option<string>) {
    && a in regular
    && a.bundleId != ownBundle
    && a.bundleId.GetOr("") !in Denylist
  }

  /** The frontmost application, when there is one, is among the running ones. */
  predicate Coherent(inv: Inventory) {
    inv.frontmost.Some? ==> inv.frontmost.value in inv.live
  }

  /**
   * Exclusion is decided by bundle identifier and policy alone: an
   * application without a bundle identifier is never denylisted, and one
   * carrying our own identifier is never trackable.
   */
  lemma TrackableCases(a: App, regular: set<App>, ownBundle: Option<string>)
    ensures a !in regular ==> !Trackable(a, regular, ownBundle)
    ensures a.bundleId == ownBundle ==> !Trackable(a, regular, ownBundle)
    ensures a.bundleId.Some? && a.bundleId.value in Denylist ==> !Trackable(a, regular, ownBundle)
    ensures a in regular && a.bundleId.None? && ownBundle.Some? ==> Trackable(a, regular, ownBundle)
  {
  }
}

=== FILE: reconcile.dfy ===
/**
 * One run of the periodic check: drop departed applications, refresh the
 * frontmost one, run the safety-net add, then send a terminate request to
 * every entry idle past the threshold that has finished launching and is not
 * opted out, removing it only when the request is accepted.
 */
module Reconcile {
  import opened Wrappers
  import opened Process
  import opened OptOut
  import opened Ledger

  /** Strictly more than the threshold has passed since `since`; exactly the threshold does not count. */
  predicate IdleTooLong(cfg: Config, since: int, now: int) {
    now - since > ThresholdSeconds(cfg)
  }

  /** The three conditions under which the termination loop asks an entry to quit. */
  predicate ShouldQuit(cfg: Config, t: Toggles, inv: Inventory, a: App, since: int, now: int) {
    && IdleTooLong(cfg, since, now)
    && a in inv.launched
    && AutoQuit(t, a.name)
  }

  /** The ledger a sweep ends with, and the applications it sent a terminate request. */
  datatype Outcome = Outcome(ledger: Ledger, requested: set<App>)

  /** Whether `a` would be in the ledger when the termination loop starts. */
  predicate Staged(l: Ledger, inv: Inventory, ownBundle: Option<string>, a: App) {
    || (a in l && a in inv.live)
    || inv.frontmost == Some(a)
    || (a in inv.live && Trackable(a, inv.regular, ownBundle))
  }

  /**
   * The first two steps of a sweep: drop departed applications, then stamp
   * the frontmost one (running or not, excluded or not) with `now`.
   */
  function Refresh(l: Ledger, inv: Inventory, now: int): (r: Ledger)
    ensures forall a :: a in r <==> (a in l && a in inv.live) || inv.frontmost == Some(a)
    ensures forall a :: a in r ==> r[a] == (if inv.frontmost != Some(a) then l[a] else now)
  {
    var pruned := Prune(l, inv.live);
    match inv.frontmost
    case Some(f) => Touch(pruned, f, now)
    case None => pruned
  }

  /** The first three steps of a sweep: prune, frontmost refresh, safety-net add. */
  function Stage(cfg: Config, l: Ledger, inv: Inventory, now: int): (r: Ledger)
    ensures forall a :: a in r <==> Staged(l, inv, cfg.ownBundle, a)
    ensures forall a :: a in r ==>
      r[a] == (if inv.frontmost != Some(a) && a in l && a in inv.live then l[a] else now)
  {
    AddRunning(Refresh(l, inv, now), inv.live, inv.regular, cfg.ownBundle, now)
  }

  /** The applications the termination loop sends a request to, given the ledger it iterates over. */
  function Requests(cfg: Config, t: Toggles, inv: Inventory, staged: Ledger, now: int): (req: set<App>)
    ensures forall a :: a in req <==> a in staged && ShouldQuit(cfg, t, inv, a, staged[a], now)
  {
    set a | a in staged && ShouldQuit(cfg, t, inv, a, staged[a], now)
  }

  /**
   * A full sweep at time `now`. Its contract is stated against the ledger it
   * started from: an entry is requested to quit exactly when it was tracked,
   * is still running, is not frontmost, has idled strictly past the threshold,
   * has finished launching and is opted in; it leaves the ledger exactly when
   * it departed or its request was accepted; every survivor keeps its old
   * timestamp unless it is frontmost or newly added, in which case it holds `now`.
   */
  function Sweep(cfg: Config, t: Toggles, l: Ledger, inv: Inventory, now: int): (r: Outcome)
    ensures forall a :: a in r.requested <==>
      && a in l && a in inv.live && inv.frontmost != Some(a)
      && ShouldQuit(cfg, t, inv, a, l[a], now)
    ensures forall a :: a in r.ledger <==>
      Staged(l, inv, cfg.ownBundle, a) && !(a in r.requested && a in inv.accepts)
    ensures forall a :: a in r.ledger ==>
      r.ledger[a] == (if inv.frontmost != Some(a) && a in l && a in inv.live then l[a] else now)
    ensures forall a :: a in r.ledger ==> a in inv.live || inv.frontmost == Some(a)
    ensures inv.frontmost.Some? ==>
      var f := inv.frontmost.value;
      f in r.ledger && r.ledger[f] == now && f !in r.requested
    ensures forall a :: a in r.requested && a !in inv.accepts ==> a in r.ledger && r.ledger[a] == l[a]
    ensures forall a :: a in l && a in inv.live && !AutoQuit(t, a.name) ==> a in r.ledger && a !in r.requested
  {
    var staged := Stage(cfg, l, inv, now);
    var req := Requests(cfg, t, inv, staged, now);
    Outcome(Reap(staged, req, inv.accepts), req)
  }

  /**
   * `addCurrentRunningApps` defers its insertions to a later turn of the main
   * queue, so they land after the termination loop has run over the ledger
   * without them. This is that order.
   */
  function SweepDeferred(cfg: Config, t: Toggles, l: Ledger, inv: Inventory, now: int): (r: Outcome)
    ensures forall a :: a in r.requested <==>
      && a in l && a in inv.live && inv.frontmost != Some(a)
      && ShouldQuit(cfg, t, inv, a, l[a], now)
    ensures forall a :: a in r.ledger <==>
      Staged(l, inv, cfg.ownBundle, a) && !(a in r.requested && a in inv.accepts)
    ensures forall a :: a in r.ledger ==>
      r.ledger[a] == (if inv.frontmost != Some(a) && a in l && a in inv.live then l[a] else now)
  {
    var refreshed := Refresh(l, inv, now);
    var added := AddRunning(refreshed, inv.live, inv.regular, cfg.ownBundle, now);
    var req := Requests(cfg, t, inv, refreshed, now);
    var reaped := Reap(refreshed, req, inv.accepts);
    Outcome(reaped + map a | a in added.Keys - refreshed.Keys :: now, req)
  }

  /**
   * Deferring the safety-net insertions changes nothing: the applications it
   * adds are stamped `now`, so none of them is idle, and the deferred order
   * ends with the same ledger and the same terminate requests.
   */
  lemma DeferredInsertMatchesSweep(cfg: Config, t: Toggles, l: Ledger, inv: Inventory, now: int)
    ensures SweepDeferred(cfg, t, l, inv, now).requested == Sweep(cfg, t, l, inv, now).requested
    ensures SweepDeferred(cfg, t, l, inv, now).ledger == Sweep(cfg, t, l, inv, now).ledger
  {
    var refreshed := Refresh(l, inv, now);
    var added := AddRunning(refreshed, inv.live, inv.regular, cfg.ownBundle, now);
    assert added == Stage(cfg, l, inv, now);
    var req := Requests(cfg, t, inv, refreshed, now);
    assert req == Requests(cfg, t, inv, added, now);
    var d := SweepDeferred(cfg, t, l, inv, now);
    var s := Sweep(cfg, t, l, inv, now);
    assert d.ledger.Keys == s.ledger.Keys;
    assert forall a :: a in d.ledger ==> d.ledger[a] == s.ledger[a];
  }

  /** With the frontmost application among the running ones, a sweep leaves only running applications tracked. */
  lemma SweepKeepsOnlyRunning(cfg: Config, t: Toggles, l: Ledger, inv: Inventory, now: int)
    requires Coherent(inv)
    ensures forall a :: a in Sweep(cfg, t, l, inv, now).ledger ==> a in inv.live
  {
  }

  /**
   * A rejected terminate request is retried: the entry stays with its old
   * timestamp, so any later sweep that still sees it running, in the
   * background, launched and opted in asks it to quit again.
   */
  lemma FailedRequestRetried(cfg: Config, t: Toggles, l: Ledger, inv1: Inventory, now1: int,
                             inv2: Inventory, now2: int, a: App)
    requires a in Sweep(cfg, t, l, inv1, now1).requested && a !in inv1.accepts
    requires now2 >= now1
    requires a in inv2.live && inv2.frontmost != Some(a) && a in inv2.launched
    ensures a in Sweep(cfg, t, Sweep(cfg, t, l, inv1, now1).ledger, inv2, now2).requested
  {
  }
}

=== FILE: scenarios.dfy ===
/** Concrete runs of the engine with a one-hour threshold. */
module Scenarios {
  import opened Wrappers
  import opened Process
  import opened OptOut
  import opened Reconcile
  import opened Engine

  const OneHour: Config := Config(1, Some("janisberneker.MagicQuit"))
  const Notes: App := App(1, Some("Notes"), Some("com.apple.Notes"))
  const Finder: App := App(2, Some("Finder"), Some("com.apple.finder"))

  /** Notes in the background, launched, accepting a terminate request. */
  const NotesIdle: Inventory := Inventory([Notes], None, {Notes}, {Notes}, {Notes})

  /**
   * Notes last in front at `t0`: still tracked and untouched 3599 and 3600
   * seconds later, asked to quit and removed at 3601.
   */
  lemma ThresholdIsStrict(t0: int)
    ensures var r := Sweep(OneHour, map[], map[Notes := t0], NotesIdle, t0 + 3599);
      Notes !in r.requested && r.ledger == map[Notes := t0]
    ensures var r := Sweep(OneHour, map[], map[Notes := t0], NotesIdle, t0 + 3600);
      Notes !in r.requested && r.ledger == map[Notes := t0]
    ensures var r := Sweep(OneHour, map[], map[Notes := t0], NotesIdle, t0 + 3601);
      Notes in r.requested && r.ledger == map[]
  {
  }

  /** With Notes switched off, no amount of idling gets it asked to quit. */
  lemma OptedOutNeverQuits(t0: int, idle: nat)
    ensures var t := SetAutoQuit(map[], Notes.name, false);
      var r := Sweep(OneHour, t, map[Notes := t0], NotesIdle, t0 + idle);
      Notes !in r.requested && r.ledger == map[Notes := t0]
  {
  }

  /**
   * The denylist guards only the safety-net add: Finder in front is tracked
   * by the frontmost refresh, and an hour and a second after it goes to the
   * background a check asks it to quit.
   */
  lemma FrontmostFinderIsTracked(now: int)
    ensures !Trackable(Finder, {Finder}, OneHour.ownBundle)
    ensures var r := Sweep(OneHour, map[], map[], Inventory([Finder], Some(Finder), {Finder}, {Finder}, {}), now);
      r.ledger == map[Finder := now]
    ensures Finder in Sweep(OneHour, map[], map[Finder := now],
                            Inventory([Finder], None, {Finder}, {Finder}, {}), now + 3601).requested
  {
  }

  /** A deactivation notice for Finder tracks it too. */
  lemma DeactivatedFinderIsTracked(s: State, now: int)
    ensures var s' := Step(OneHour, s, Deactivated(Finder, now));
      Finder in s'.ledger && s'.ledger[Finder] == now
  {
  }

  const Tool: App := App(7, Some("Tool"), Some("com.example.tool"))

  /**
   * An application that drops its regular activation policy while tracked
   * (hiding its Dock icon, say) keeps its entry and timestamp, and is asked
   * to quit once idle past the threshold.
   */
  lemma PolicyChangeKeepsEntry(t0: int)
    ensures !Trackable(Tool, {}, OneHour.ownBundle)
    ensures var r := Sweep(OneHour, map[], map[Tool := t0], Inventory([Tool], None, {}, {Tool}, {Tool}), t0 + 7200);
      Tool in r.requested && r.ledger == map[]
  {
  }
}

=== FILE: wrappers.dfy ===
/** The optional value used for Swift's `T?` throughout the model. */
module Wrappers {

  datatype Option<+T> = None | Some(value: T) {

    /** Swift's `x ?? default`. */
    function GetOr(default: T): T {
      match this
      case Some(v) => v
      case None => default
    }
  }
}
